=== FILE: README.md ===
# Group chat state replay

A model of the group-state replay behind the legacy `GroupChat` view of the
messaging client. A group conversation is an append-only log of messages.
Some of those messages are control events:

- `Genesis`: founds the group. Its sender is the creator, and it names the invitees.
- `MemberAdded`: adds one address.
- `TitleChanged`: sets the title.

A view derives its member list and title by folding these events, in log
order, into a state. The view's operations are:

- construct: yields the zero state.
- `fromConversation`: constructs, then runs a full rebuild.
- `rebuild()`: re-folds the whole log on top of the current state.
- `rebuild({since})`: re-folds Genesis plus only the events at or after `since`.
- `addMember` / `changeTitle`: append a control message to the log and apply the same event locally.

The behaviour modelled is the one asserted by
`test/conversations/GroupChat.test.ts`. Where the tests are silent, the
model fixes these rules:

- Genesis is applied once and only activates an unbuilt view.
- A repeated MemberAdded is a no-op.
- The latest TitleChanged wins.
- Genesis always takes part in a windowed rebuild.

Modules, leaves first:

- `Wrappers` (`wrappers.dfy`): `Option` and `Result`.
- `Codec` (`codec.dfy`): control events, transport messages, classifying a
  message, and the control events of a log.
- `EventLog` (`event_log.dfy`): the shape of a founded group's log, and the
  genesis-always window.
- `Replay` (`replay.dfy`): the state, `Apply`, the fold and its laws
  (append, latest-wins title, idempotence, window/title agreement), and
  the merge loop.
- `GroupChat` (`group_chat.dfy`): the view operations and their laws.
- `Scenarios` (`scenarios.dfy`): each group-state test of the group-chat suite as a
  lemma over arbitrary distinct addresses and timestamps.

Decisions the tests leave open:

- Ordering. The log is taken as already totally ordered. `Chronological`
  (timestamps never decrease) is the assumption where a law needs it.
  Ties between equal timestamps are never observed, and their tie-break is
  not modelled.
- Window boundary. It is inclusive: an event at exactly `since` is replayed.
- Founding members. They are the creator, then each invitee not already
  listed. The member list is kept free of duplicates. Duplicate invitees are
  never observed in the tests.
- Transport outcomes are parameters: the fetched log (or a fetch error), and
  the timestamp the network assigns to an append (or an append error).

## Model

| member | source | states |
|---|---|---|
| Codec.Decode | test/conversations/GroupChat.test.ts:178-181 | a message yields an event exactly when it carries a well-formed control payload, and the event keeps the message's sender and timestamp; chat, malformed payloads and unknown content types yield nothing |
| Codec.EncodeDecode | test/conversations/GroupChat.test.ts:132-140 | a message that decodes is exactly the encoding of the event it decodes to |
| Codec.Encode | test/conversations/GroupChat.test.ts:132-140 | the control message a view sends decodes, on any peer, to exactly the event it carries, with the same timestamp |
| Codec.ControlEvents | test/conversations/GroupChat.test.ts:178-181 | the events replayed from a log are exactly the decodable control messages in it; chat sharing the conversation, malformed control payloads and unknown content types are skipped |
| Codec.ControlEventsAppend | test/conversations/GroupChat.test.ts:172-181 | classifying a log piecewise yields the same events in the same order, so messages appended later extend the replay at its end |
| EventLog.Window | test/conversations/GroupChat.test.ts:234-239 | a window holds at most the log's events, and the window of a log that starts with Genesis starts with that same Genesis |
| EventLog.WindowMembership | test/conversations/GroupChat.test.ts:234-239 | a windowed replay keeps an event exactly when it is Genesis or sent at or after `since` |
| EventLog.WindowChronological | test/conversations/GroupChat.test.ts:223-234 | windowing keeps the retained events in timestamp order |
| EventLog.WindowWellFormed | test/conversations/GroupChat.test.ts:234-239 | the window of a founded group's log still starts with that same Genesis and holds no other |
| Replay.AddUnique | test/conversations/GroupChat.test.ts:172-176 | adding a member keeps the list as a prefix, grows it by at most one, makes the set of members the old set plus the address, and keeps it free of duplicates |
| Replay.GenesisMembers | test/conversations/GroupChat.test.ts:58-68 | the founding member list starts with the creator, holds exactly the creator and the invitees, and has no duplicates |
| Replay.GenesisMembersDistinct | test/conversations/GroupChat.test.ts:58-68 | when the invitees are distinct and exclude the creator, the founding list is the creator followed by the invitees in order |
| Replay.Apply | test/conversations/GroupChat.test.ts:164-176 | one event: Genesis activates an unbuilt view with the founding members and is a no-op on an active one; MemberAdded adds its address and is a no-op when it is present; TitleChanged overwrites the title and leaves members and activity as they were; every member afterwards is a prior member or an address the event names |
| Replay.Fold | test/conversations/GroupChat.test.ts:204-207 | after a replay the view is active exactly when it was or the events hold a Genesis; an active view's members survive as a prefix; the list stays free of duplicates |
| Replay.FoldAppend | test/conversations/GroupChat.test.ts:197-207 | replaying a log in two pieces equals replaying it whole |
| Replay.FoldTitle | test/conversations/GroupChat.test.ts:197-207 | the replayed title is the payload of the last TitleChanged, or the prior title when there is none |
| Replay.FoldGrows | test/conversations/GroupChat.test.ts:172-176 | with no Genesis able to reset it, a replay keeps every member and contains every address a MemberAdded names |
| Replay.FoldOnlyNamed | test/conversations/GroupChat.test.ts:197-207 | a replay adds nobody unnamed: every member afterwards was a member before or is named by a replayed Genesis (creator or invitee) or MemberAdded |
| Replay.FoldIdempotent | test/conversations/GroupChat.test.ts:172-175 | folding events over their own result changes nothing, whenever no late Genesis can reset the list: the view is active, the events hold no Genesis, or the first event is one |
| Replay.WindowTitle | test/conversations/GroupChat.test.ts:229-238 | in a chronological log, the last title inside any window agrees with the last title of the whole log |
| Replay.Merge | test/conversations/GroupChat.test.ts:204-207 | the in-order merge loop computes the fold |
| GroupChat.Construct | test/conversations/GroupChat.test.ts:200-202 | a constructed view has no members, the empty title and is inactive |
| GroupChat.FromConversation | test/conversations/GroupChat.test.ts:139-140 | a failed fetch is propagated; on success the view is active exactly when the log holds a Genesis, its title is the last TitleChanged's payload (empty if none), its members are free of duplicates and each is named by some Genesis or MemberAdded of the log; when the log starts with Genesis, the creator and invitees come first; and, when no late Genesis can reset the list, every added address is present |
| GroupChat.Rebuild | test/conversations/GroupChat.test.ts:173-175 | a failed fetch is propagated; a successful one activates the view exactly when the log holds a Genesis, takes the last TitleChanged among the replayed events as its title (the prior title if none), never drops an active view's members, admits only prior members and addresses named by a replayed Genesis or MemberAdded, and keeps the list free of duplicates |
| GroupChat.AddMember | test/conversations/GroupChat.test.ts:165-176 | an invalid address fails; a failed append is propagated; otherwise the log gains exactly one message, carrying that MemberAdded, and the address is appended at the end of the local list (or the list is unchanged if it is present); title and activity untouched |
| GroupChat.ChangeTitle | test/conversations/GroupChat.test.ts:132-140 | a failed append is propagated; otherwise the log gains exactly one message, carrying that TitleChanged, and the local title becomes it, members and activity untouched |
| GroupChat.AppendedMessageIsEncoded | test/conversations/GroupChat.test.ts:194-198 | an append that adds one message and one control event has appended exactly that event's encoding, so the log `addMember` and `changeTitle` return is the old log plus the encoded event |
| GroupChat.ConstructionPerformsNoReplay | test/conversations/GroupChat.test.ts:200-207 | a constructed view has the empty title, no members and is inactive, and differs from the view built over a founded group's log |
| GroupChat.AddMemberMatchesReplay | test/conversations/GroupChat.test.ts:164-176 | a view that replayed the log and then added a member holds exactly what a replay of the extended log yields |
| GroupChat.ChangeTitleMatchesReplay | test/conversations/GroupChat.test.ts:132-151 | a view that replayed the log and then changed the title holds exactly what a replay of the extended log yields |
| GroupChat.FullRebuildIdempotent | test/conversations/GroupChat.test.ts:172-175 | a second full rebuild over the same log changes nothing, so members are not duplicated, whenever no late Genesis can reset the list |
| GroupChat.WindowedRebuildAfterFullIsNoop | test/conversations/GroupChat.test.ts:234-239 | a windowed rebuild on top of a fully rebuilt view over a chronological log changes nothing, whenever no late Genesis can reset the list |
| GroupChat.GenesisAlways | test/conversations/GroupChat.test.ts:234-239 | a windowed rebuild of any unbuilt view over a log whose first control event is Genesis activates it with the founding members in front, whatever `since` is |
| GroupChat.EarlyMessageIgnored | test/conversations/GroupChat.test.ts:223-239 | a non-Genesis message sent before `since` has no effect on a windowed rebuild, wherever it sits in the log |
| GroupChat.ChatIsIgnored | test/conversations/GroupChat.test.ts:178-181 | appending ordinary chat to the log changes no rebuild, full or windowed |
| Scenarios.CanBeStarted | test/conversations/GroupChat.test.ts:53-68 | the creator's view of a group founded with two distinct invitees lists creator and invitees, 3 members, empty title, active |
| Scenarios.PeersSeeTitle | test/conversations/GroupChat.test.ts:132-151 | after a title change, any peer's full rebuild of the extended log reports that title |
| Scenarios.CanHaveTitle | test/conversations/GroupChat.test.ts:119-152 | a constructed view has the empty title; after it changes the title, a peer's view built from the conversation reports it |
| Scenarios.CanAddMembers | test/conversations/GroupChat.test.ts:154-176 | after the creator adds a fourth address, a peer's view built and rebuilt again has 4 members with the new address at index 3, the same list as the creator's local view |
| Scenarios.UnbuiltViewAppends | test/conversations/GroupChat.test.ts:194-198 | an unbuilt view's addMember then changeTitle append the MemberAdded and then the TitleChanged to the founding log |
| Scenarios.CanBeRebuilt | test/conversations/GroupChat.test.ts:184-208 | a fresh view has no title and no members; a full rebuild over that log yields the title and the 4 members, the added one last |
| Scenarios.CanBeRebuiltPartially | test/conversations/GroupChat.test.ts:210-240 | with `since` after the addition and at or before the title change, a fresh windowed rebuild takes the title, not the addition, and keeps exactly the 3 founding members |

## Left out

- Client setup and transport. Creating clients, contact publication, listing conversations, sending and fetching messages, and closing are all left out. They are network I/O. The fetched log and each append's outcome are parameters.
- Delivery of ordinary chat (the tests at lines 77-117 and 178-181 of the group-chat suite) belongs to the transport. Only the fact that chat shares the log and is skipped by replay is modelled.
- Wall-clock time (`sleep`, `new Date()`) is left out. Timestamps are `nat`, and `since` is a `nat`.
- Tie-breaks between equal timestamps are not modelled. The log order is taken as given.
- Convergence across peers that received messages in different orders is not modelled. The ordering is the transport's, so it is outside this model.
- The byte encoding of control payloads is left out. The group-chat tests do not fix a payload encoding. A message is represented by its classification.
- `enableGroupChat` is left out. It is a client feature flag with no effect on the fold.
- Creation time, metadata and the creator identity exposed by the newer MLS conversation API are left out. Those results come from native bindings.
- Concurrent `rebuild` calls on one view are left out. The model is sequential: a state value is passed in and returned.
- GroupChat.ValidAddress: the group-chat tests do not specify the view's address check. It is modelled as the wallet-address form, `0x` followed by forty hexadecimal digits.
- GroupChat.Rebuild: append-only membership is stated only for a view that has already seen Genesis. For an unbuilt view, Genesis replaces the local member list (`Replay.Apply`).
- Replay.FoldIdempotent: not stated for an unbuilt view over events whose first is not Genesis but which hold a later Genesis. There the first pass applies additions that the Genesis then replaces, and the second pass adds them again. The same limit applies to GroupChat.FullRebuildIdempotent and GroupChat.WindowedRebuildAfterFullIsNoop.

=== FILE: codec.dfy ===
/**
  Control events and how they are told apart from everything else that
  travels in a group conversation's message log.

  The byte-level payload encoding is not modelled: a transport message is
  represented by what classifying it yields (ordinary chat, a well-formed
  control event, a control tag whose payload is malformed, or an unknown
  content type).
 */
module Codec {
  import opened Wrappers

  /** A network identity (a wallet address), as text. */
  type Addr = string

  /** The three shapes of control event a group conversation carries. */
  datatype Control =
    | Genesis(invitees: seq<Addr>)   // founding event; its sender is the creator
    | MemberAdded(member: Addr)
    | TitleChanged(title: string)

  /** A decoded control event with its sender and network-assigned timestamp. */
  datatype Event = Event(control: Control, sender: Addr, at: nat)

  /** What one transport message carries, as far as this engine can tell. */
  datatype Payload =
    | Text(content: string)             // ordinary chat sharing the same log
    | ControlPayload(control: Control)  // a control tag whose payload decoded
    | MalformedControl                  // a control tag whose payload did not decode
    | Unrecognized                      // a content type this engine does not know

  /** One message of the conversation log, as delivered by the transport. */
  datatype Message = Message(payload: Payload, sender: Addr, at: nat)

  /** Classifies one message: a control event, or nothing for anything else. */
  function Decode(m: Message): (r: Option<Event>)
    ensures r.Some? <==> m.payload.ControlPayload?
    ensures r.Some? ==> r.value.sender == m.sender && r.value.at == m.at
  {
    match m.payload
    case ControlPayload(c) => Some(Event(c, m.sender, m.at))
    case _ => None
  }

  /** The message that carries a control event over the transport. */
  function Encode(e: Event): (m: Message)
    ensures Decode(m) == Some(e)
    ensures m.at == e.at
  {
    Message(ControlPayload(e.control), e.sender, e.at)
  }

  /** A message that decodes is exactly the encoding of the event it decodes to. */
  lemma EncodeDecode(m: Message)
    requires Decode(m).Some?
    ensures Encode(Decode(m).value) == m
  {
  }

  /**
    The control events of a log, in log order. Chat, malformed control
    payloads and unknown content types are skipped, never fatal.
   */
  function ControlEvents(log: seq<Message>): (r: seq<Event>)
    ensures |r| <= |log|
    ensures forall e :: e in r <==> exists i :: 0 <= i < |log| && Decode(log[i]) == Some(e)
  {
    if |log| == 0 then []
    else
      var init := log[..|log| - 1];
      var rest := ControlEvents(init);
      assert forall i :: 0 <= i < |init| ==> init[i] == log[i];
      match Decode(log[|log| - 1])
      case Some(e) => rest + [e]
      case None => rest
  }

  /** Classifying a log piecewise gives the same events in the same order. */
  lemma {:induction false} ControlEventsAppend(a: seq<Message>, b: seq<Message>)
    ensures ControlEvents(a + b) == ControlEvents(a) + ControlEvents(b)
    decreases |b|
  {
    if |b| == 0 {
      assert a + b == a;
    } else {
      var b' := b[..|b| - 1];
      assert (a + b)[..|a + b| - 1] == a + b';
      assert (a + b)[|a + b| - 1] == b[|b| - 1];
      ControlEventsAppend(a, b');
    }
  }

  /** Appending one message extends the control events by its decoding, if any. */
  lemma ControlEventsSnoc(log: seq<Message>, m: Message)
    ensures ControlEvents(log + [m]) ==
      ControlEvents(log) + (match Decode(m) case Some(e) => [e] case None => [])
  {
    assert (log + [m])[..|log|] == log;
  }
}

=== FILE: event_log.dfy ===
/**
  The ordered sequence of control events a replay consumes, and the
  genesis-always window a partial rebuild restricts it to.

  Ordering is an assumption about the transport, not something this model
  establishes: the log is taken as already totally ordered by timestamp,
  with equal timestamps in whatever fixed order the transport delivers.
 */
module EventLog {
  import opened Codec

  /** Timestamps never decrease along the log. */
  predicate Chronological(es: seq<Event>)
  {
    forall i, j :: 0 <= i < j < |es| ==> es[i].at <= es[j].at
  }

  /** No Genesis except possibly the first event. */
  predicate GenesisOnlyAtHead(es: seq<Event>)
  {
    forall i :: 0 < i < |es| ==> !es[i].control.Genesis?
  }

  /** The events start with a Genesis. */
  predicate FoundedBy(es: seq<Event>)
  {
    |es| > 0 && es[0].control.Genesis?
  }

  predicate HasGenesis(es: seq<Event>)
  {
    exists i :: 0 <= i < |es| && es[i].control.Genesis?
  }

  /**
    The shape of a founded group's log: exactly one Genesis, first, and the
    rest in timestamp order.
   */
  predicate WellFormed(es: seq<Event>)
  {
    && |es| > 0
    && es[0].control.Genesis?
    && GenesisOnlyAtHead(es)
    && Chronological(es)
  }

  /** Whether an event survives a rebuild windowed at `since` (boundary inclusive). */
  predicate InWindow(e: Event, since: nat)
  {
    e.control.Genesis? || e.at >= since
  }

  /** Genesis plus every other event at or after `since`, in log order. */
  function Window(es: seq<Event>, since: nat): (r: seq<Event>)
    ensures |r| <= |es|
    ensures |es| > 0 && es[0].control.Genesis? ==> |r| > 0 && r[0] == es[0]
  {
    if |es| == 0 then []
    else
      var init := es[..|es| - 1];
      var last := es[|es| - 1];
      assert |init| > 0 ==> init[0] == es[0];
      if InWindow(last, since) then Window(init, since) + [last] else Window(init, since)
  }

  /** The window holds exactly the log's events that are Genesis or at or after `since`. */
  lemma {:induction false} WindowMembership(es: seq<Event>, since: nat)
    ensures forall e :: e in Window(es, since) <==> e in es && InWindow(e, since)
    decreases |es|
  {
    if |es| > 0 {
      var init := es[..|es| - 1];
      assert forall e :: e in es <==> e in init || e == es[|es| - 1];
      WindowMembership(init, since);
    }
  }

  /** Appending one event extends the window by that event exactly when it is in the window. */
  lemma WindowSnoc(es: seq<Event>, e: Event, since: nat)
    ensures Window(es + [e], since) == Window(es, since) + (if InWindow(e, since) then [e] else [])
  {
    assert (es + [e])[..|es|] == es;
  }

  /** Windowing keeps the events it retains in their relative order. */
  lemma {:induction false} WindowChronological(es: seq<Event>, since: nat)
    requires Chronological(es)
    ensures Chronological(Window(es, since))
    decreases |es|
  {
    if |es| > 0 {
      var init := es[..|es| - 1];
      var last := es[|es| - 1];
      WindowChronological(init, since);
      WindowMembership(init, since);
      var rest := Window(init, since);
      forall e | e in rest
        ensures e.at <= last.at
      {
        var i :| 0 <= i < |init| && init[i] == e;
        assert es[i] == e;
      }
    }
  }

  /** Windowing a founded group's log keeps its Genesis in front. */
  lemma {:induction false} WindowWellFormed(es: seq<Event>, since: nat)
    requires WellFormed(es)
    ensures WellFormed(Window(es, since))
    ensures Window(es, since)[0] == es[0]
    decreases |es|
  {
    WindowChronological(es, since);
    if |es| > 1 {
      var init := es[..|es| - 1];
      assert WellFormed(init);
      WindowWellFormed(init, since);
      assert !es[|es| - 1].control.Genesis?;
    }
  }
}

=== FILE: group_chat.dfy ===
/**
  The group view: the object a caller holds for one group conversation.
  Its state is a `State` value; reading the conversation log and appending
  to it are transport operations whose outcomes arrive as parameters.
 */
module GroupChat {
  import opened Wrappers
  import opened Codec
  import opened EventLog
  import opened Replay

  datatype Error =
    | TransportError(reason: string)   // a fetch or an append failed
    | InvalidAddress(addr: Addr)       // addMember was given something that is not an address

  /** A view's state after a successful append, with the log the append produced. */
  datatype Sent = Sent(state: State, log: seq<Message>)

  /** A new view bound to a conversation: the zero state, no I/O. */
  function Construct(): (v: State)
    ensures v.members == [] && v.title == "" && !v.active
  {
    Zero
  }

  /** The events a rebuild replays: all of them, or Genesis plus those at or after `since`. */
  function Replayed(log: seq<Message>, since: Option<nat>): seq<Event>
  {
    match since
    case None => ControlEvents(log)
    case Some(t) => Window(ControlEvents(log), t)
  }

  /** A windowed replay sees a Genesis exactly when the full log holds one. */
  lemma ReplayedGenesis(log: seq<Message>, since: Option<nat>)
    ensures HasGenesis(Replayed(log, since)) <==> HasGenesis(ControlEvents(log))
  {
    var es := ControlEvents(log);
    var w := Replayed(log, since);
    if since.Some? {
      WindowMembership(es, since.value);
    }
    if HasGenesis(es) {
      var i :| 0 <= i < |es| && es[i].control.Genesis?;
      assert es[i] in w;
    }
    if HasGenesis(w) {
      var i :| 0 <= i < |w| && w[i].control.Genesis?;
      assert w[i] in es;
    }
  }

  /**
    Re-folds the fetched log (or its window) on top of the current state.
    A failed fetch is propagated and leaves the caller's state as it was.
   */
  function Rebuild(s: State, fetched: Result<seq<Message>, Error>, since: Option<nat>): (r: Result<State, Error>)
    ensures fetched.Failure? ==> r == Failure(fetched.error)
    ensures fetched.Success? ==> r.Success?
    ensures fetched.Success? ==> r.value.active == (s.active || HasGenesis(ControlEvents(fetched.value)))
    ensures fetched.Success? && s.active ==> s.members <= r.value.members
    ensures fetched.Success? && NoDup(s.members) ==> NoDup(r.value.members)
    ensures fetched.Success? ==> r.value.title == LastTitleOr(Replayed(fetched.value, since), s.title)
    ensures fetched.Success? ==>
      forall x :: x in r.value.members ==> x in s.members || Named(Replayed(fetched.value, since), x)
  {
    match fetched
    case Failure(err) => Failure(err)
    case Success(log) =>
      ReplayedGenesis(log, since);
      FoldTitle(s, Replayed(log, since));
      FoldOnlyNamed(s, Replayed(log, since));
      Success(Fold(s, Replayed(log, since)))
  }

  /**
    What a full replay onto the unbuilt view guarantees beyond `Rebuild`:
    the founding members in front when the log starts with Genesis, and
    every added address when no late Genesis can reset the list.
   */
  lemma FreshReplay(fetched: Result<seq<Message>, Error>)
    ensures fetched.Success? && NoLateReset(Construct(), ControlEvents(fetched.value)) ==>
      AddsOnly(ControlEvents(fetched.value), Fold(Construct(), ControlEvents(fetched.value)).members)
    ensures fetched.Success? && FoundedBy(ControlEvents(fetched.value)) ==>
      GenesisMembers(ControlEvents(fetched.value)[0].sender, ControlEvents(fetched.value)[0].control.invitees)
        <= Fold(Construct(), ControlEvents(fetched.value)).members
  {
    if fetched.Success? {
      var es := ControlEvents(fetched.value);
      if NoLateReset(Construct(), es) {
        ContainsAdded(Construct(), es);
      }
      if FoundedBy(es) {
        FoldGenesisFirst(Construct(), es);
      }
    }
  }

  /** Constructs a view, then rebuilds it over the whole log. */
  function FromConversation(fetched: Result<seq<Message>, Error>): (r: Result<State, Error>)
    ensures fetched.Failure? ==> r == Failure(fetched.error)
    ensures fetched.Success? ==> r.Success?
    ensures fetched.Success? ==> r.value.active == HasGenesis(ControlEvents(fetched.value))
    ensures fetched.Success? ==> r.value.title == LastTitleOr(ControlEvents(fetched.value), "")
    ensures fetched.Success? ==> NoDup(r.value.members)
    ensures fetched.Success? && NoLateReset(Construct(), ControlEvents(fetched.value)) ==>
      AddsOnly(ControlEvents(fetched.value), r.value.members)
    ensures fetched.Success? ==>
      forall x :: x in r.value.members ==> Named(ControlEvents(fetched.value), x)
    ensures fetched.Success? && FoundedBy(ControlEvents(fetched.value)) ==>
      GenesisMembers(ControlEvents(fetched.value)[0].sender, ControlEvents(fetched.value)[0].control.invitees)
        <= r.value.members
  {
    FreshReplay(fetched);
    Rebuild(Construct(), fetched, None)
  }

  predicate IsHexDigit(c: char)
  {
    '0' <= c <= '9' || 'a' <= c <= 'f' || 'A' <= c <= 'F'
  }

  /** A wallet address: `0x` followed by forty hexadecimal digits. */
  predicate ValidAddress(a: Addr)
  {
    && |a| == 42
    && a[0] == '0' && a[1] == 'x'
    && forall i :: 2 <= i < |a| ==> IsHexDigit(a[i])
  }

  /**
    Appends a MemberAdded for `addr` to the log and applies it locally.
    `sent` is the transport's answer to the append: the timestamp it
    assigned, or the error it failed with.
   */
  function AddMember(s: State, log: seq<Message>, sender: Addr, addr: Addr, sent: Result<nat, Error>): (r: Result<Sent, Error>)
    ensures !ValidAddress(addr) ==> r == Failure(InvalidAddress(addr))
    ensures ValidAddress(addr) && sent.Failure? ==> r == Failure(sent.error)
    ensures ValidAddress(addr) && sent.Success? ==> r.Success?
    ensures r.Success? ==>
      && ControlEvents(r.value.log) == ControlEvents(log) + [Event(MemberAdded(addr), sender, sent.value)]
      && log < r.value.log
      && |r.value.log| == |log| + 1
    ensures r.Success? ==>
      && s.members <= r.value.state.members
      && addr in r.value.state.members
      && (addr !in s.members ==> r.value.state.members == s.members + [addr])
      && (addr in s.members ==> r.value.state.members == s.members)
      && r.value.state.title == s.title
      && r.value.state.active == s.active
  {
    if !ValidAddress(addr) then Failure(InvalidAddress(addr))
    else match sent
      case Failure(err) => Failure(err)
      case Success(at) =>
        var e := Event(MemberAdded(addr), sender, at);
        ControlEventsSnoc(log, Encode(e));
        Success(Sent(Apply(s, e), log + [Encode(e)]))
  }

  /** Appends a TitleChanged for `title` to the log and applies it locally. */
  function ChangeTitle(s: State, log: seq<Message>, sender: Addr, title: string, sent: Result<nat, Error>): (r: Result<Sent, Error>)
    ensures sent.Failure? ==> r == Failure(sent.error)
    ensures sent.Success? ==> r.Success?
    ensures r.Success? ==>
      && ControlEvents(r.value.log) == ControlEvents(log) + [Event(TitleChanged(title), sender, sent.value)]
      && log < r.value.log
      && |r.value.log| == |log| + 1
    ensures r.Success? ==>
      && r.value.state.title == title
      && r.value.state.members == s.members
      && r.value.state.active == s.active
  {
    match sent
    case Failure(err) => Failure(err)
    case Success(at) =>
      var e := Event(TitleChanged(title), sender, at);
      ControlEventsSnoc(log, Encode(e));
      Success(Sent(Apply(s, e), log + [Encode(e)]))
  }

  /**
    An append that grows the log by one message and adds exactly one control
    event to it has appended that event's encoding and nothing else.
   */
  lemma AppendedMessageIsEncoded(log: seq<Message>, grown: seq<Message>, e: Event)
    requires log < grown && |grown| == |log| + 1
    requires ControlEvents(grown) == ControlEvents(log) + [e]
    ensures grown == log + [Encode(e)]
  {
    var m := grown[|log|];
    assert grown == log + [m];
    var es := ControlEvents(log);
    ControlEventsSnoc(log, m);
    match Decode(m)
    case None =>
      assert false;
    case Some(d) =>
      assert es + [d] == es + [e];
      assert (es + [d])[|es|] == d;
      EncodeDecode(m);
  }

  /**
    Construction performs no replay: a constructed view has an empty title
    and no members, and differs from a view built over a founded group's log.
   */
  lemma ConstructionPerformsNoReplay(log: seq<Message>)
    requires HasGenesis(ControlEvents(log))
    ensures Construct().title == "" && |Construct().members| == 0 && !Construct().active
    ensures FromConversation(Success(log)).Success?
    ensures FromConversation(Success(log)).value != Construct()
    ensures FromConversation(Success(log)).value.active
  {
  }

  /** Applying one more event to a replay equals replaying the longer log. */
  lemma ReplaySnoc(s: State, log: seq<Message>, e: Event)
    ensures Fold(s, ControlEvents(log + [Encode(e)])) == Apply(Fold(s, ControlEvents(log)), e)
  {
    ControlEventsSnoc(log, Encode(e));
    var es := ControlEvents(log);
    assert (es + [e])[..|es|] == es;
  }

  /**
    A view that replayed the log and then added a member locally holds
    exactly what any peer gets by replaying the extended log.
   */
  lemma AddMemberMatchesReplay(s: State, log: seq<Message>, sender: Addr, addr: Addr, sent: Result<nat, Error>)
    requires Rebuild(s, Success(log), None).Success?
    requires AddMember(Rebuild(s, Success(log), None).value, log, sender, addr, sent).Success?
    ensures var r := AddMember(Rebuild(s, Success(log), None).value, log, sender, addr, sent).value;
      Rebuild(s, Success(r.log), None) == Success(r.state)
  {
    ReplaySnoc(s, log, Event(MemberAdded(addr), sender, sent.value));
  }

  /**
    A view that replayed the log and then changed the title locally holds
    exactly what any peer gets by replaying the extended log.
   */
  lemma ChangeTitleMatchesReplay(s: State, log: seq<Message>, sender: Addr, title: string, sent: Result<nat, Error>)
    requires Rebuild(s, Success(log), None).Success?
    requires ChangeTitle(Rebuild(s, Success(log), None).value, log, sender, title, sent).Success?
    ensures var r := ChangeTitle(Rebuild(s, Success(log), None).value, log, sender, title, sent).value;
      Rebuild(s, Success(r.log), None) == Success(r.state)
  {
    ReplaySnoc(s, log, Event(TitleChanged(title), sender, sent.value));
  }

  /** A second full rebuild over the same log changes nothing: no duplicated members. */
  lemma FullRebuildIdempotent(s: State, log: seq<Message>)
    requires NoLateReset(s, ControlEvents(log))
    ensures Rebuild(Rebuild(s, Success(log), None).value, Success(log), None) == Rebuild(s, Success(log), None)
  {
    FoldIdempotent(s, ControlEvents(log));
  }

  /**
    A windowed rebuild on top of a fully rebuilt view changes nothing: the
    window's events are already reflected and its last title is the log's.
   */
  lemma WindowedRebuildAfterFullIsNoop(s: State, log: seq<Message>, since: nat)
    requires NoLateReset(s, ControlEvents(log))
    requires Chronological(ControlEvents(log))
    ensures Rebuild(Rebuild(s, Success(log), None).value, Success(log), Some(since)) == Rebuild(s, Success(log), None)
  {
    var es := ControlEvents(log);
    var w := Window(es, since);
    var v := Fold(s, es);
    ReplayedGenesis(log, Some(since));
    WindowMembership(es, since);
    ContainsAdded(s, es);
    forall i | 0 <= i < |w| && w[i].control.MemberAdded?
      ensures w[i].control.member in v.members
    {
      assert w[i] in es;
    }
    FoldAbsorbs(v, w);
    FoldTitle(s, es);
    FoldTitle(v, w);
    WindowTitle(es, since, s.title);
  }

  /**
    Genesis always participates: a windowed rebuild of an unbuilt view over
    a log that starts with Genesis activates it with the founding members
    in front, however late `since` is.
   */
  lemma GenesisAlways(s: State, log: seq<Message>, since: nat)
    requires !s.active
    requires FoundedBy(ControlEvents(log))
    ensures Rebuild(s, Success(log), Some(since)).Success?
    ensures Rebuild(s, Success(log), Some(since)).value.active
    ensures GenesisMembers(ControlEvents(log)[0].sender, ControlEvents(log)[0].control.invitees)
      <= Rebuild(s, Success(log), Some(since)).value.members
  {
    FoldGenesisFirst(s, Window(ControlEvents(log), since));
  }

  /** Windowing a log piecewise windows each piece. */
  lemma {:induction false} WindowAppend(a: seq<Event>, b: seq<Event>, since: nat)
    ensures Window(a + b, since) == Window(a, since) + Window(b, since)
    decreases |b|
  {
    if |b| == 0 {
      assert a + b == a;
    } else {
      var b' := b[..|b| - 1];
      assert (a + b)[..|a + b| - 1] == a + b';
      assert (a + b)[|a + b| - 1] == b[|b| - 1];
      WindowAppend(a, b', since);
    }
  }

  /**
    Windowed exclusion: a non-Genesis message sent before `since` has no
    effect on a windowed rebuild, wherever it sits in the log.
   */
  lemma EarlyMessageIgnored(s: State, pre: seq<Message>, m: Message, post: seq<Message>, since: nat)
    requires m.at < since
    requires !(m.payload.ControlPayload? && m.payload.control.Genesis?)
    ensures Rebuild(s, Success(pre + [m] + post), Some(since)) == Rebuild(s, Success(pre + post), Some(since))
  {
    var a := ControlEvents(pre);
    var b := ControlEvents(post);
    var one := ControlEvents([m]);
    assert ControlEvents(pre + [m] + post) == a + one + b by {
      ControlEventsAppend(pre + [m], post);
      ControlEventsAppend(pre, [m]);
    }
    assert ControlEvents(pre + post) == a + b by {
      ControlEventsAppend(pre, post);
    }
    assert Window(one, since) == [] by {
      ControlEventsSnoc([], m);
      assert [] + [m] == [m];
      if Decode(m).Some? {
        var e := Decode(m).value;
        assert one == [] + [e];
        WindowSnoc([], e, since);
      }
    }
    assert Window(a + one + b, since) == Window(a + b, since) by {
      WindowAppend(a + one, b, since);
      WindowAppend(a, one, since);
      WindowAppend(a, b, since);
    }
  }

  /** Ordinary chat in the log never changes a rebuild, full or windowed. */
  lemma ChatIsIgnored(s: State, log: seq<Message>, m: Message, since: Option<nat>)
    requires !m.payload.ControlPayload?
    ensures Rebuild(s, Success(log + [m]), since) == Rebuild(s, Success(log), since)
  {
    ControlEventsSnoc(log, m);
    assert ControlEvents(log + [m]) == ControlEvents(log);
  }
}

=== FILE: replay.dfy ===
/**
  The replay/merge engine: a pure fold of control events into the group
  state a view exposes (member list, title, whether Genesis was seen).
 */
module Replay {
  import opened Codec
  import opened EventLog

  /** The materialised group state. The zero value means "never replayed". */
  datatype State = State(members: seq<Addr>, title: string, active: bool)

  /** The state of a view that has not replayed anything yet. */
  const Zero := State([], "", false)

  predicate NoDup(ms: seq<Addr>)
  {
    forall i, j :: 0 <= i < j < |ms| ==> ms[i] != ms[j]
  }

  /** Appends `a` unless it is already listed: set union, first-seen order. */
  function AddUnique(ms: seq<Addr>, a: Addr): (r: seq<Addr>)
    ensures ms <= r && |r| <= |ms| + 1
    ensures forall x :: x in r <==> x in ms || x == a
    ensures NoDup(ms) ==> NoDup(r)
  {
    if a in ms then ms else ms + [a]
  }

  /** The founding member list: the creator, then each invitee not yet listed. */
  function GenesisMembers(creator: Addr, invitees: seq<Addr>): (r: seq<Addr>)
    ensures |r| > 0 && r[0] == creator
    ensures forall x :: x in r <==> x == creator || x in invitees
    ensures NoDup(r)
  {
    if |invitees| == 0 then [creator]
    else
      var init := invitees[..|invitees| - 1];
      assert forall x :: x in invitees <==> x in init || x == invitees[|invitees| - 1];
      AddUnique(GenesisMembers(creator, init), invitees[|invitees| - 1])
  }

  /** Invitees that are distinct and exclude the creator are listed verbatim. */
  lemma {:induction false} GenesisMembersDistinct(creator: Addr, invitees: seq<Addr>)
    requires NoDup([creator] + invitees)
    ensures GenesisMembers(creator, invitees) == [creator] + invitees
    decreases |invitees|
  {
    if |invitees| > 0 {
      var init := invitees[..|invitees| - 1];
      var last := invitees[|invitees| - 1];
      var all := [creator] + invitees;
      var front := [creator] + init;
      assert all == front + [last];
      assert forall i :: 0 <= i < |front| ==> front[i] == all[i];
      assert NoDup(front);
      GenesisMembersDistinct(creator, init);
      forall i | 0 <= i < |front|
        ensures front[i] != last
      {
        assert all[|all| - 1] == last;
      }
    }
  }

  /** Whether an event names `x`: as a Genesis's creator or invitee, or as the added member. */
  predicate NamedBy(e: Event, x: Addr)
  {
    match e.control
    case Genesis(invitees) => x == e.sender || x in invitees
    case MemberAdded(member) => x == member
    case TitleChanged(_) => false
  }

  /** Whether some event of `es` names `x`. */
  predicate Named(es: seq<Event>, x: Addr)
  {
    exists i :: 0 <= i < |es| && NamedBy(es[i], x)
  }

  /** Applies one control event to a state. */
  function Apply(s: State, e: Event): (r: State)
    ensures r.active == (s.active || e.control.Genesis?)
    ensures r.title == (if e.control.TitleChanged? then e.control.title else s.title)
    // membership is append-only except when Genesis first activates the view
    ensures s.active || !e.control.Genesis? ==> s.members <= r.members
    ensures !e.control.Genesis? || s.active ==> |r.members| <= |s.members| + 1
    ensures e.control.MemberAdded? ==> e.control.member in r.members
    ensures e.control.MemberAdded? && e.control.member in s.members ==> r == s
    ensures e.control.Genesis? && s.active ==> r == s
    ensures e.control.Genesis? && !s.active ==>
      && |r.members| > 0 && r.members[0] == e.sender
      && forall x :: x in r.members <==> x == e.sender || x in e.control.invitees
    ensures e.control.TitleChanged? ==> r.members == s.members
    // every member is a prior one or an address the event names
    ensures forall x :: x in r.members ==> x in s.members || NamedBy(e, x)
    ensures NoDup(s.members) ==> NoDup(r.members)
  {
    match e.control
    case Genesis(invitees) =>
      if s.active then s
      else s.(members := GenesisMembers(e.sender, invitees), active := true)
    case MemberAdded(member) =>
      s.(members := AddUnique(s.members, member))
    case TitleChanged(title) =>
      s.(title := title)
  }

  /** Folds the events, in order, into the state. */
  function Fold(s: State, es: seq<Event>): (r: State)
    ensures r.active == (s.active || HasGenesis(es))
    ensures s.active ==> s.members <= r.members
    ensures NoDup(s.members) ==> NoDup(r.members)
  {
    if |es| == 0 then s
    else
      var init := es[..|es| - 1];
      assert forall i :: 0 <= i < |init| ==> init[i] == es[i];
      assert HasGenesis(es) <==> HasGenesis(init) || es[|es| - 1].control.Genesis?;
      Apply(Fold(s, init), es[|es| - 1])
  }

  /**
    The title after a replay, defined independently of the fold: the payload
    of the last TitleChanged, or `default` when there is none.
   */
  function LastTitleOr(es: seq<Event>, default: string): string
  {
    if |es| == 0 then default
    else if es[|es| - 1].control.TitleChanged? then es[|es| - 1].control.title
    else LastTitleOr(es[..|es| - 1], default)
  }

  predicate HasTitle(es: seq<Event>)
  {
    exists i :: 0 <= i < |es| && es[i].control.TitleChanged?
  }

  /** Replaying two pieces in turn is replaying their concatenation. */
  lemma {:induction false} FoldAppend(s: State, a: seq<Event>, b: seq<Event>)
    ensures Fold(s, a + b) == Fold(Fold(s, a), b)
    decreases |b|
  {
    if |b| == 0 {
      assert a + b == a;
    } else {
      var b' := b[..|b| - 1];
      assert (a + b)[..|a + b| - 1] == a + b';
      assert (a + b)[|a + b| - 1] == b[|b| - 1];
      FoldAppend(s, a, b');
    }
  }

  /** Latest-wins title: the fold's title is the last TitleChanged's payload. */
  lemma {:induction false} FoldTitle(s: State, es: seq<Event>)
    ensures Fold(s, es).title == LastTitleOr(es, s.title)
    decreases |es|
  {
    if |es| > 0 {
      FoldTitle(s, es[..|es| - 1]);
    }
  }

  /** The last title ignores the default exactly when some title exists. */
  lemma {:induction false} LastTitleDefault(es: seq<Event>, d: string, d': string)
    ensures HasTitle(es) ==> LastTitleOr(es, d) == LastTitleOr(es, d')
    ensures !HasTitle(es) ==> LastTitleOr(es, d) == d
    decreases |es|
  {
    if |es| > 0 {
      var init := es[..|es| - 1];
      assert forall i :: 0 <= i < |init| ==> init[i] == es[i];
      assert HasTitle(es) <==> HasTitle(init) || es[|es| - 1].control.TitleChanged?;
      LastTitleDefault(init, d, d');
    }
  }

  /** Every member a MemberAdded of `es` names. */
  predicate AddsOnly(es: seq<Event>, ms: seq<Addr>)
  {
    forall i :: 0 <= i < |es| && es[i].control.MemberAdded? ==> es[i].control.member in ms
  }

  /**
    Without a Genesis that could reset the list (the view is active, or the
    events hold none), a replay keeps every member and adds every MemberAdded.
   */
  lemma {:induction false} FoldGrows(s: State, es: seq<Event>)
    requires s.active || !HasGenesis(es)
    ensures s.members <= Fold(s, es).members
    ensures AddsOnly(es, Fold(s, es).members)
    decreases |es|
  {
    if |es| > 0 {
      var init := es[..|es| - 1];
      assert forall i :: 0 <= i < |init| ==> init[i] == es[i];
      assert !HasGenesis(es) ==> !HasGenesis(init);
      FoldGrows(s, init);
      var t := Fold(s, init);
      var r := Fold(s, es);
      assert t.members <= r.members;
      forall i | 0 <= i < |es| && es[i].control.MemberAdded?
        ensures es[i].control.member in r.members
      {
        if i < |init| {
          assert es[i].control.member in t.members;
        }
      }
    }
  }

  /**
    A replay adds nobody unnamed: every member afterwards was a member before
    or is named by some replayed Genesis or MemberAdded.
   */
  lemma {:induction false} FoldOnlyNamed(s: State, es: seq<Event>)
    ensures forall x :: x in Fold(s, es).members ==> x in s.members || Named(es, x)
    decreases |es|
  {
    if |es| > 0 {
      var init := es[..|es| - 1];
      var last := es[|es| - 1];
      FoldOnlyNamed(s, init);
      forall x | x in Fold(s, es).members
        ensures x in s.members || Named(es, x)
      {
        if NamedBy(last, x) {
          assert NamedBy(es[|es| - 1], x);
        } else {
          assert x in Fold(s, init).members;
          if Named(init, x) {
            var i :| 0 <= i < |init| && NamedBy(init[i], x);
            assert es[i] == init[i];
          }
        }
      }
    }
  }

  /**
    No Genesis in `es` can replace members gathered earlier in the same
    replay: the view is already active, the events hold no Genesis, or the
    first event is one.
   */
  predicate NoLateReset(s: State, es: seq<Event>)
  {
    s.active || !HasGenesis(es) || (|es| > 0 && es[0].control.Genesis?)
  }

  /** A replay that no late Genesis can reset contains every member it adds. */
  lemma ContainsAdded(s: State, es: seq<Event>)
    requires NoLateReset(s, es)
    ensures AddsOnly(es, Fold(s, es).members)
  {
    if s.active || !HasGenesis(es) {
      FoldGrows(s, es);
    } else {
      var tail := es[1..];
      assert es == [es[0]] + tail;
      FoldAppend(s, [es[0]], tail);
      assert Fold(s, [es[0]]) == Apply(s, es[0]);
      FoldGrows(Apply(s, es[0]), tail);
      forall i | 0 <= i < |es| && es[i].control.MemberAdded?
        ensures es[i].control.member in Fold(s, es).members
      {
        assert tail[i - 1] == es[i];
      }
    }
  }

  /**
    A state that already holds every member the events add, and that no
    Genesis in them can reset, keeps its member list and activity.
   */
  lemma {:induction false} FoldAbsorbs(t: State, es: seq<Event>)
    requires t.active || !HasGenesis(es)
    requires AddsOnly(es, t.members)
    ensures Fold(t, es).members == t.members
    ensures Fold(t, es).active == t.active
    decreases |es|
  {
    if |es| > 0 {
      var init := es[..|es| - 1];
      assert forall i :: 0 <= i < |init| ==> init[i] == es[i];
      assert !HasGenesis(es) ==> !HasGenesis(init);
      FoldAbsorbs(t, init);
    }
  }

  /** Replaying Genesis-first events over an unbuilt view puts the founding members in front. */
  lemma FoldGenesisFirst(s: State, es: seq<Event>)
    requires !s.active
    requires |es| > 0 && es[0].control.Genesis?
    ensures GenesisMembers(es[0].sender, es[0].control.invitees) <= Fold(s, es).members
  {
    assert es == [es[0]] + es[1..];
    FoldAppend(s, [es[0]], es[1..]);
    assert Fold(s, [es[0]]) == Apply(s, es[0]);
  }

  /** Re-folding events over their own result changes nothing, unless a late Genesis reset them. */
  lemma FoldIdempotent(s: State, es: seq<Event>)
    requires NoLateReset(s, es)
    ensures Fold(Fold(s, es), es) == Fold(s, es)
  {
    var t := Fold(s, es);
    ContainsAdded(s, es);
    FoldAbsorbs(t, es);
    FoldTitle(s, es);
    FoldTitle(t, es);
    LastTitleDefault(es, t.title, s.title);
  }

  /** Events before `since` leave no title behind in the window. */
  lemma {:induction false} WindowOfEarlyHasNoTitle(es: seq<Event>, since: nat)
    requires forall i :: 0 <= i < |es| ==> es[i].at < since
    ensures !HasTitle(Window(es, since))
  {
    var w := Window(es, since);
    WindowMembership(es, since);
    forall i | 0 <= i < |w|
      ensures !w[i].control.TitleChanged?
    {
      assert w[i] in es;
    }
  }

  /** In a chronological log, the window's last title is the log's last title. */
  lemma {:induction false} WindowTitle(es: seq<Event>, since: nat, d: string)
    requires Chronological(es)
    ensures LastTitleOr(Window(es, since), LastTitleOr(es, d)) == LastTitleOr(es, d)
    decreases |es|
  {
    if |es| > 0 {
      var init := es[..|es| - 1];
      var last := es[|es| - 1];
      assert Chronological(init);
      var w := Window(init, since);
      if last.control.TitleChanged? {
        if !InWindow(last, since) {
          assert forall i :: 0 <= i < |init| ==> init[i].at <= last.at;
          WindowOfEarlyHasNoTitle(init, since);
          LastTitleDefault(w, last.control.title, d);
        }
      } else {
        WindowTitle(init, since, d);
        if InWindow(last, since) {
          assert (w + [last])[..|w|] == w;
        }
      }
    }
  }

  /**
    The merge loop the engine runs: events are applied one at a time, in
    order. Its result is the fold.
   */
  method Merge(s: State, es: seq<Event>) returns (r: State)
    ensures r == Fold(s, es)
  {
    r := s;
    var i := 0;
    while i < |es|
      invariant 0 <= i <= |es|
      invariant r == Fold(s, es[..i])
    {
      assert es[..i + 1][..i] == es[..i];
      r := Apply(r, es[i]);
      i := i + 1;
    }
    assert es[..|es|] == es;
  }
}

=== FILE: scenarios.dfy ===
/**
  The group-chat test scenarios, stated for arbitrary distinct addresses
  and timestamps rather than for one run: Alice founds a group with Bob and
  Charlie, and Carol is the member added later.
 */
module Scenarios {
  import opened Wrappers
  import opened Codec
  import opened EventLog
  import opened Replay
  import opened GroupChat

  /** The log of a group Alice founded at `t0`, inviting Bob and Charlie. */
  function FoundedLog(alice: Addr, bob: Addr, charlie: Addr, t0: nat): seq<Message>
  {
    [Encode(Event(Genesis([bob, charlie]), alice, t0))]
  }

  lemma FoundedLogEvents(alice: Addr, bob: Addr, charlie: Addr, t0: nat)
    ensures ControlEvents(FoundedLog(alice, bob, charlie, t0)) == [Event(Genesis([bob, charlie]), alice, t0)]
  {
    ControlEventsSnoc([], Encode(Event(Genesis([bob, charlie]), alice, t0)));
    assert [] + FoundedLog(alice, bob, charlie, t0) == FoundedLog(alice, bob, charlie, t0);
  }

  /** Three pairwise-distinct addresses form a duplicate-free list. */
  lemma NoDupThree(a: Addr, b: Addr, c: Addr)
    requires a != b && a != c && b != c
    ensures NoDup([a, b, c])
  {
    var ms := [a, b, c];
    forall i, j | 0 <= i < j < 3
      ensures ms[i] != ms[j]
    {
    }
  }

  lemma FoldTwo(s: State, e1: Event, e2: Event)
    ensures Fold(s, [e1, e2]) == Apply(Apply(s, e1), e2)
  {
    assert [e1][..0] == [];
    assert Fold(s, [e1]) == Apply(s, e1);
    assert [e1, e2][..1] == [e1];
  }

  lemma FoldThree(s: State, e1: Event, e2: Event, e3: Event)
    ensures Fold(s, [e1, e2, e3]) == Apply(Apply(Apply(s, e1), e2), e3)
  {
    assert [e1, e2, e3][..2] == [e1, e2];
    FoldTwo(s, e1, e2);
  }

  /** The founding event applied to an unbuilt state lists the creator, then the invitees. */
  lemma ApplyFounding(s: State, alice: Addr, bob: Addr, charlie: Addr, t0: nat)
    requires alice != bob && alice != charlie && bob != charlie
    requires !s.active
    ensures Apply(s, Event(Genesis([bob, charlie]), alice, t0))
      == s.(members := [alice, bob, charlie], active := true)
  {
    NoDupThree(alice, bob, charlie);
    assert [alice] + [bob, charlie] == [alice, bob, charlie];
    GenesisMembersDistinct(alice, [bob, charlie]);
  }

  /** Replaying only the founding event yields the creator followed by the invitees. */
  lemma FoundedState(s: State, alice: Addr, bob: Addr, charlie: Addr, t0: nat)
    requires alice != bob && alice != charlie && bob != charlie
    requires !s.active
    ensures Rebuild(s, Success(FoundedLog(alice, bob, charlie, t0)), None).Success?
    ensures Rebuild(s, Success(FoundedLog(alice, bob, charlie, t0)), None).value
      == State([alice, bob, charlie], s.title, true)
  {
    FoundedLogEvents(alice, bob, charlie, t0);
    ApplyFounding(s, alice, bob, charlie, t0);
    var es := [Event(Genesis([bob, charlie]), alice, t0)];
    assert es[..0] == [];
    assert Fold(s, es) == Apply(s, es[0]);
  }

  /** Can be started: the creator's view of a new group lists three members. */
  lemma CanBeStarted(alice: Addr, bob: Addr, charlie: Addr, t0: nat)
    requires alice != bob && alice != charlie && bob != charlie
    ensures var v := FromConversation(Success(FoundedLog(alice, bob, charlie, t0)));
      && v.Success?
      && v.value.members == [alice, bob, charlie]
      && |v.value.members| == 3
      && v.value.title == ""
      && v.value.active
  {
    FoundedState(Construct(), alice, bob, charlie, t0);
  }

  /** After a title change, every peer's full rebuild reports that title. */
  lemma PeersSeeTitle(s: State, log: seq<Message>, sender: Addr, title: string, sent: Result<nat, Error>, peer: State)
    requires ChangeTitle(s, log, sender, title, sent).Success?
    ensures var r := ChangeTitle(s, log, sender, title, sent).value;
      Rebuild(peer, Success(r.log), None).value.title == title
  {
    var r := ChangeTitle(s, log, sender, title, sent).value;
    var es := ControlEvents(r.log);
    FoldTitle(peer, es);
    assert es[|es| - 1].control == TitleChanged(title);
  }

  /**
    Can have a title: a constructed, unbuilt view has the empty title; after
    it changes the title, Bob's and Charlie's views built from the
    conversation both report it.
   */
  lemma CanHaveTitle(alice: Addr, bob: Addr, charlie: Addr, t0: nat, t1: nat, title: string)
    ensures Construct().title == ""
    ensures var r := ChangeTitle(Construct(), FoundedLog(alice, bob, charlie, t0), alice, title, Success(t1));
      && r.Success?
      && FromConversation(Success(r.value.log)).value.title == title
  {
    PeersSeeTitle(Construct(), FoundedLog(alice, bob, charlie, t0), alice, title, Success(t1), Construct());
  }

  /** The founding log after Alice adds Carol at `t1`. */
  function AddedLog(alice: Addr, bob: Addr, charlie: Addr, carol: Addr, t0: nat, t1: nat): seq<Message>
  {
    FoundedLog(alice, bob, charlie, t0) + [Encode(Event(MemberAdded(carol), alice, t1))]
  }

  /** Adding Carol to the founded state appends her and the addition to the log. */
  lemma AddCarol(alice: Addr, bob: Addr, charlie: Addr, carol: Addr, t0: nat, t1: nat)
    requires carol != alice && carol != bob && carol != charlie
    requires ValidAddress(carol)
    ensures AddMember(State([alice, bob, charlie], "", true), FoundedLog(alice, bob, charlie, t0), alice, carol, Success(t1))
      == Success(Sent(State([alice, bob, charlie, carol], "", true), AddedLog(alice, bob, charlie, carol, t0, t1)))
  {
    var v := State([alice, bob, charlie], "", true);
    var e := Event(MemberAdded(carol), alice, t1);
    assert carol !in v.members;
    assert AddUnique(v.members, carol) == [alice, bob, charlie] + [carol];
    assert Apply(v, e) == State([alice, bob, charlie, carol], "", true);
  }

  /** Alice's built view adds Carol: her list gains Carol last and the log gains the addition. */
  lemma AliceAddsCarol(alice: Addr, bob: Addr, charlie: Addr, carol: Addr, t0: nat, t1: nat)
    requires alice != bob && alice != charlie && bob != charlie
    requires carol != alice && carol != bob && carol != charlie
    requires ValidAddress(carol)
    ensures var log0 := FoundedLog(alice, bob, charlie, t0);
      AddMember(FromConversation(Success(log0)).value, log0, alice, carol, Success(t1))
        == Success(Sent(State([alice, bob, charlie, carol], "", true), AddedLog(alice, bob, charlie, carol, t0, t1)))
  {
    FoundedState(Construct(), alice, bob, charlie, t0);
    AddCarol(alice, bob, charlie, carol, t0, t1);
  }

  /** Any view built from the log holding Carol's addition lists her last, and rebuilding it changes nothing. */
  lemma PeerSeesCarol(alice: Addr, bob: Addr, charlie: Addr, carol: Addr, t0: nat, t1: nat)
    requires alice != bob && alice != charlie && bob != charlie
    requires carol != alice && carol != bob && carol != charlie
    requires ValidAddress(carol)
    ensures var log1 := AddedLog(alice, bob, charlie, carol, t0, t1);
      && FromConversation(Success(log1)) == Success(State([alice, bob, charlie, carol], "", true))
      && Rebuild(State([alice, bob, charlie, carol], "", true), Success(log1), None)
        == Success(State([alice, bob, charlie, carol], "", true))
  {
    var log0 := FoundedLog(alice, bob, charlie, t0);
    var log1 := AddedLog(alice, bob, charlie, carol, t0, t1);
    AliceAddsCarol(alice, bob, charlie, carol, t0, t1);
    AddMemberMatchesReplay(Construct(), log0, alice, carol, Success(t1));
    FoundedLogEvents(alice, bob, charlie, t0);
    ControlEventsSnoc(log0, Encode(Event(MemberAdded(carol), alice, t1)));
    var es := ControlEvents(log1);
    assert es[0] == Event(Genesis([bob, charlie]), alice, t0);
    assert NoLateReset(Construct(), es);
    FullRebuildIdempotent(Construct(), log1);
  }

  /**
    Can add members: Alice builds her view and adds Carol; Bob builds his
    view and rebuilds it again; he sees four members, Carol last.
   */
  lemma CanAddMembers(alice: Addr, bob: Addr, charlie: Addr, carol: Addr, t0: nat, t1: nat)
    requires alice != bob && alice != charlie && bob != charlie
    requires carol != alice && carol != bob && carol != charlie
    requires ValidAddress(carol)
    ensures var log0 := FoundedLog(alice, bob, charlie, t0);
      var aliceView := FromConversation(Success(log0));
      var added := AddMember(aliceView.value, log0, alice, carol, Success(t1));
      && added.Success?
      && var bobView := FromConversation(Success(added.value.log));
      && var rebuilt := Rebuild(bobView.value, Success(added.value.log), None);
      && rebuilt.Success?
      && |rebuilt.value.members| == 4
      && rebuilt.value.members[3] == carol
      && rebuilt.value.members == added.value.state.members
  {
    AliceAddsCarol(alice, bob, charlie, carol, t0, t1);
    PeerSeesCarol(alice, bob, charlie, carol, t0, t1);
  }

  /** The log after Alice, on an unbuilt view, adds Carol at `t1` and sets the title at `t2`. */
  function GrownLog(alice: Addr, bob: Addr, charlie: Addr, carol: Addr, t0: nat, t1: nat, t2: nat, title: string): seq<Message>
  {
    FoundedLog(alice, bob, charlie, t0)
      + [Encode(Event(MemberAdded(carol), alice, t1)), Encode(Event(TitleChanged(title), alice, t2))]
  }

  lemma GrownLogEvents(alice: Addr, bob: Addr, charlie: Addr, carol: Addr, t0: nat, t1: nat, t2: nat, title: string)
    ensures ControlEvents(GrownLog(alice, bob, charlie, carol, t0, t1, t2, title))
      == [Event(Genesis([bob, charlie]), alice, t0), Event(MemberAdded(carol), alice, t1), Event(TitleChanged(title), alice, t2)]
  {
    var m1 := Encode(Event(MemberAdded(carol), alice, t1));
    var m2 := Encode(Event(TitleChanged(title), alice, t2));
    var log0 := FoundedLog(alice, bob, charlie, t0);
    FoundedLogEvents(alice, bob, charlie, t0);
    ControlEventsSnoc(log0, m1);
    ControlEventsSnoc(log0 + [m1], m2);
    assert log0 + [m1] + [m2] == GrownLog(alice, bob, charlie, carol, t0, t1, t2, title);
  }

  /** The unbuilt view's own addMember and changeTitle append exactly the grown log. */
  lemma UnbuiltViewAppends(alice: Addr, bob: Addr, charlie: Addr, carol: Addr, t0: nat, t1: nat, t2: nat, title: string)
    requires ValidAddress(carol)
    ensures var a := AddMember(Construct(), FoundedLog(alice, bob, charlie, t0), alice, carol, Success(t1));
      && a.Success?
      && var c := ChangeTitle(a.value.state, a.value.log, alice, title, Success(t2));
      && c.Success?
      && c.value.log == GrownLog(alice, bob, charlie, carol, t0, t1, t2, title)
  {
  }

  /**
    Can be rebuilt: a second unbuilt view starts with no title and no
    members; a full rebuild over the grown log reflects both the added
    member and the title.
   */
  lemma CanBeRebuilt(alice: Addr, bob: Addr, charlie: Addr, carol: Addr, t0: nat, t1: nat, t2: nat, title: string)
    requires alice != bob && alice != charlie && bob != charlie
    requires carol != alice && carol != bob && carol != charlie
    ensures Construct().title == "" && |Construct().members| == 0
    ensures var r := Rebuild(Construct(), Success(GrownLog(alice, bob, charlie, carol, t0, t1, t2, title)), None);
      && r.Success?
      && r.value.title == title
      && r.value.members == [alice, bob, charlie, carol]
      && |r.value.members| == 4
  {
    GrownLogEvents(alice, bob, charlie, carol, t0, t1, t2, title);
    var g := Event(Genesis([bob, charlie]), alice, t0);
    FoldThree(Construct(), g, Event(MemberAdded(carol), alice, t1), Event(TitleChanged(title), alice, t2));
    ApplyFounding(Construct(), alice, bob, charlie, t0);
  }

  /** A window opening after the addition and no later than the title change drops only the addition. */
  lemma WindowSkipsAddition(g: Event, add: Event, tc: Event, since: nat)
    requires g.control.Genesis?
    requires !add.control.Genesis? && add.at < since
    requires !tc.control.Genesis? && since <= tc.at
    ensures Window([g, add, tc], since) == [g, tc]
  {
    var s0: seq<Event> := [];
    var s1 := s0 + [g];
    var s2 := s1 + [add];
    var s3 := s2 + [tc];
    WindowSnoc(s0, g, since);
    WindowSnoc(s1, add, since);
    WindowSnoc(s2, tc, since);
    assert Window(s0, since) == [];
    assert Window(s3, since) == [g, tc];
    assert s3 == [g, add, tc];
  }

  /**
    Can be rebuilt partially: with `since` after the member addition and at
    or before the title change, a fresh windowed rebuild takes the title,
    not the addition, and keeps the three founding members.
   */
  lemma CanBeRebuiltPartially(alice: Addr, bob: Addr, charlie: Addr, carol: Addr, t0: nat, t1: nat, t2: nat, since: nat, title: string)
    requires alice != bob && alice != charlie && bob != charlie
    requires carol != alice && carol != bob && carol != charlie
    requires t1 < since <= t2
    ensures var r := Rebuild(Construct(), Success(GrownLog(alice, bob, charlie, carol, t0, t1, t2, title)), Some(since));
      && r.Success?
      && r.value.title == title
      && r.value.members == [alice, bob, charlie]
      && |r.value.members| == 3
      && carol !in r.value.members
  {
    GrownLogEvents(alice, bob, charlie, carol, t0, t1, t2, title);
    var g := Event(Genesis([bob, charlie]), alice, t0);
    var add := Event(MemberAdded(carol), alice, t1);
    var tc := Event(TitleChanged(title), alice, t2);
    WindowSkipsAddition(g, add, tc, since);
    FoldTwo(Construct(), g, tc);
    ApplyFounding(Construct(), alice, bob, charlie, t0);
  }
}

=== FILE: wrappers.dfy ===
/** Optional values and success-or-error results, shared by the rest of the model. */
module Wrappers {

  /** A value that may be absent. */
  datatype Option<+T> = None | Some(value: T)

  /** Either a computed value or the error that prevented it. */
  datatype Result<+R, +E> = Success(value: R) | Failure(error: E)
}
